=== FILE: README.md ===
# Packet-driven RGB and servo controller: a Dafny model

The firmware listens on a UDP port and drives three LED channels (red, green,
blue) and one servo through PWM duty values. Each received datagram is
decoded as one of two commands:

- `TOGGLE` (any well-formed text of at most 64 bytes that starts with that
  token) moves a six-state colour selector to its next state;
- a number (the whole text read as a `u8`) is an angle: the LED pattern
  chosen by the selector is written at `angle * max_duty / 180`, the other
  LED channels are written as 0, and the servo is written at a duty
  interpolated from `lo` at 0 degrees to `hi` at 180 degrees, and past `hi`
  for angles 181..255.

Everything else is dropped: text that is not well-formed UTF-8, text that
is neither a toggle nor an eight-bit number, and receive errors.

The model is a set of pure functions over a small state, one module per
component:

| file | module | what it holds |
|---|---|---|
| `wrappers.dfy` | `Wrappers`, `Bytes` | `Option`, the `uint8` byte type |
| `utf8.dfy` | `Utf8` | well-formedness of UTF-8 per RFC 3629 (section 3 layout, section 4 byte table), with encoder and decoder |
| `decimal.dfy` | `Decimal` | `u8::from_str` of the Rust standard library |
| `command.dfy` | `Command` | the `Command` datatype, `Decode` and its canonical inverse `Encode` |
| `duty.dfy` | `Duty` | the `u32` bound, LED intensity and servo duty |
| `selector.dfy` | `Selector` | the six-state selector and its output table |
| `controller.dfy` | `Controller` | one loop iteration as a transition on the decoded command, and the loop over a finite run of commands and of events |

Each operation has a partner it is proved against. For UTF-8, the partner is
an encoder of scalar values: a byte sequence is accepted exactly when it is
the encoding of the scalar values it decodes to. For the number parser, it is
a reference numeral value plus a renderer. For `Decode`, it is `Encode`. For
the duty maps, they are their end points and monotonicity. For the
selector, it is the channel pattern of each state. For the loop, it is a
count of toggles: the selector at any point of a run, and so every write,
is fixed by the toggles received before it.

An angle is any `u8` (0..255). `u8::from_str` also accepts a leading `+`
and leading zeros, and it rejects whitespace, so a payload ending in a
newline is dropped.

## Model

| member | source | states |
|---|---|---|
| Utf8.Valid | src/main.rs:78 | the check `std::str::from_utf8` makes: the bytes split into well-formed characters per the RFC 3629 table; every seven-bit ASCII text passes. Characterised exactly by Utf8.EncodeAllValid and Utf8.DecodeAllEncodes |
| Utf8.HeadIsEncoding | src/main.rs:78 | every character the validity table accepts is the shortest-form encoding of a Unicode scalar value (no overlong form, no surrogate, nothing above U+10FFFF) |
| Utf8.EncodeAllValid | src/main.rs:78 | the UTF-8 text of any sequence of scalar values is accepted and decodes back to the same sequence |
| Utf8.DecodeAllEncodes | src/main.rs:78 | every accepted byte sequence is exactly the encoding of the scalar values it decodes to, so acceptance is "is UTF-8 text" |
| Utf8.AsciiValid | src/main.rs:78 | seven-bit ASCII payloads are always accepted |
| Utf8.LeadLengthExtends | src/main.rs:78 | the length of the head character does not depend on the bytes after it |
| Utf8.ValidConcat | src/main.rs:78-79 | two accepted texts side by side are accepted, so the token followed by any text is valid |
| Utf8.RejectedExamples | src/main.rs:78 | a lone 0xFF, an overlong NUL, an encoded surrogate and a cut-off character are rejected; a complete three-byte character is accepted |
| Decimal.Accumulate | src/main.rs:81 | the digit loop of `u8::from_str`, with checked multiply and add: a result means every byte read was a digit and the value never fell below the start. Decimal.AccumulateValue gives its exact value |
| Decimal.ParseU8 | src/main.rs:81 | `u8::from_str`: a result is a numeral (optional `+`, one or more digits) of that value; a failure means no eight-bit numeral matches the text. Decimal.ParseU8Numeral and Decimal.ParseU8Fails state both directions |
| Decimal.AccumulateValue | src/main.rs:81 | the checked digit-by-digit accumulation returns the numeral's true value when it fits in eight bits and fails otherwise, including on any non-digit |
| Decimal.ParseU8Numeral | src/main.rs:81 | `u8::from_str` yields `n` exactly when the text is an optional `+` and one or more digits of value `n <= 255` |
| Decimal.ParseU8Fails | src/main.rs:81 | `u8::from_str` fails exactly when the text is no eight-bit numeral |
| Decimal.ParseRender | src/main.rs:81 | the decimal text of every `u8` parses back to it |
| Decimal.ParseExamples | src/main.rs:81 | "90" is 90, "+7" and "007" are 7; "256", "90\n", "-0", "+" and "" are rejected |
| Command.Decode | src/main.rs:78-81 | a decoded command implies well-formed text; a toggle implies the token prefix; a set-angle implies the text is a numeral of that angle |
| Command.DecodeToggle | src/main.rs:79-80 | the token followed by any well-formed text decodes to a toggle: the prefix test comes before the number parse |
| Command.DecodeSetAngle | src/main.rs:81 | a payload decodes to set-angle `a` exactly when it is an eight-bit numeral of value `a` |
| Command.DecodeDrops | src/main.rs:78-81 | a payload is dropped exactly when it is ill-formed text, or text that neither starts with the token nor is an eight-bit numeral |
| Command.DecodeEncode | src/main.rs:78-81 | decoding the canonical text of any command gives that command back |
| Command.DecodeTokenExample | src/main.rs:79-80 | "TOGGLE" is a toggle |
| Command.DecodeTokenSuffixExample | src/main.rs:79-80 | "TOGGLE!" is a toggle: text after the token is ignored |
| Command.DecodeAngleExample | src/main.rs:81 | "90" sets angle 90 |
| Command.DecodeWordExample | src/main.rs:78-81 | "abc" is well-formed text but is dropped |
| Command.DecodeEmptyExample | src/main.rs:78-81 | the empty payload is dropped |
| Command.DecodeOverflowExample | src/main.rs:81 | "256" is dropped: it does not fit in a `u8` |
| Command.DecodeNewlineExample | src/main.rs:81 | "90" followed by a newline is dropped |
| Command.DecodeInvalidExample | src/main.rs:78 | a lone byte 0xFF is not UTF-8 and is dropped |
| Duty.Intensity | src/main.rs:82 | the intensity is the floor of `angle * max_duty / 180`, fits in `u32`, and is at most `max_duty` for angles up to 180 |
| Duty.IntensityEnds | src/main.rs:82 | intensity 0 at angle 0 and `max_duty` at angle 180 |
| Duty.IntensityMonotone | src/main.rs:82 | a larger angle never gives a smaller intensity |
| Duty.IntensityAbove180 | src/main.rs:81-82 | angles 181..255 are not rejected; their intensity is at least `max_duty`, and above it exactly when `(angle - 180) * max_duty >= 180` |
| Duty.ServoDuty | src/main.rs:121-123 | the servo duty lies in `[lo, u32 max]`, at most `hi` for angles up to 180, and `lo` plus the floor of `angle * (hi - lo) / 180` |
| Duty.ServoEnds | src/main.rs:121-123 | the servo duty is `lo` at 0 degrees and `hi` at 180 degrees |
| Duty.ServoAbove180 | src/main.rs:117-123 | angles 181..255 are not clamped: their servo duty is at least `hi`, the top of the 2.5%-12.5% band, and above it exactly when `(angle - 180) * (hi - lo) >= 180` |
| Duty.ServoIsShiftedIntensity | src/main.rs:121-123 | the servo duty is the intensity map over the band `hi - lo`, shifted by `lo`, hence monotone in the angle |
| Selector.Advance | src/main.rs:80 | a toggle lands in `[0, 6)`; inside the range it moves to the next state and wraps to 0 exactly from state 5 |
| Selector.AdvanceByAdds | src/main.rs:73-80 | from a state in range, `n` toggles move the selector `n` places round the cycle of six |
| Selector.SixAdvancesReturn | src/main.rs:80 | six toggles return the selector to its start, and fewer never do |
| Selector.Apply | src/main.rs:83-91 | the table writes a triple exactly for states 0..5; any other state falls to the catch-all arm and writes nothing |
| Selector.ApplyLightsPattern | src/main.rs:83-91 | in each state, the channels of its pattern (R, G, B, RG, RB, GB) get the intensity and the others get 0 |
| Selector.PatternsAreProperSubsets | src/main.rs:83-91 | the six patterns are distinct and cover every non-empty proper subset of the three channels |
| Controller.Payload | src/main.rs:72-78 | the decoder sees the whole datagram when it fits in 64 bytes, and exactly its first 64 bytes otherwise |
| Controller.CommandOf | src/main.rs:76-81 | the receive-and-decode dispatch: a receive error carries no command; a command implies the kept bytes are well-formed text, a toggle that they start with the token, a set-angle that they are a numeral of that angle. Controller.StepIdle ties "no command" to "no effect" |
| Controller.Perform | src/main.rs:79-94 | what an iteration does with a decoded command: it writes exactly for a set-angle, only a toggle moves the selector, the selector stays in `[0, 6)`, and a write from a state in range includes the colour triple and a servo duty of at least `lo` |
| Controller.Step | src/main.rs:76-99 | an iteration keeps the selector in `[0, 6)`; an iteration that writes does not move the selector; a write from a state in range always includes the colour triple |
| Controller.StepIdle | src/main.rs:76-98 | an iteration changes nothing and writes nothing exactly when its event carries no command, as for a receive error or ill-formed text |
| Controller.StepCommand | src/main.rs:79-94 | for every event, of any length: a toggle only advances the selector and writes nothing; a set-angle keeps the selector and writes the selected pattern at the intensity plus the servo duty |
| Controller.StepToggle | src/main.rs:79-80 | a datagram of at most 64 bytes made of the token plus well-formed text only advances the selector and writes nothing |
| Controller.StepSetAngle | src/main.rs:81-94 | a numeral leaves the selector unchanged, writes the selected pattern at the intensity and the servo duty, and keeps every write in range for angles up to 180 |
| Controller.Run | src/main.rs:75-100 | a run yields one write slot per event and keeps the selector in range; Controller.RunSelector gives its final selector and Controller.RunWrites the content of every slot |
| Controller.PerformShift | src/main.rs:79-80 | one iteration moves the selector one place round the cycle for a toggle and not at all for anything else |
| Controller.ExecuteSelector | src/main.rs:73-100 | over any run of decoded commands, the selector advances by the number of toggles, modulo six |
| Controller.ExecuteWrites | src/main.rs:73-100 | the write slot of the `i`-th decoded command is what one iteration writes on it from the start advanced by the toggles among the first `i` commands |
| Controller.RunSelector | src/main.rs:73-100 | over any run, the selector advances by the number of toggles, modulo six; no other event moves it |
| Controller.RunWrites | src/main.rs:73-100 | the `i`-th write slot of any run is what one iteration writes on the `i`-th event from the start advanced by the toggles among the events before it: nothing for a toggle or a dropped payload, the selected pattern and the servo duty for an angle |
| Controller.Serve | src/main.rs:72-100 | the loop from the initial state ends in range, advanced by the toggle count, with the same writes as the functional run |
| Controller.EncodedCommand | src/main.rs:78-81 | a datagram holding a command's canonical text carries that command |
| Controller.StepEncoded | src/main.rs:79-94 | an iteration on a command's canonical text performs that command: a toggle only advances, a set-angle writes the table entry and the servo duty |
| Controller.EndToEnd | src/main.rs:75-95 | with `max_duty` 1000, payloads carrying a toggle, angle 0 and angle 180 move to the green state, write it dark then at 1000, and drive the servo to `lo` then `hi` |
| Controller.TogglePayload | src/main.rs:79-80 | the scenario's "TOGGLE" carries a toggle |
| Controller.ZeroPayload | src/main.rs:81 | the scenario's "0" sets angle 0 |
| Controller.FullPayload | src/main.rs:81 | the scenario's "180" sets angle 180 |

## Left out

- Wi-Fi association, `.env` credential loading, NVS and logger set-up (src/main.rs:16-49): platform plumbing with no logic to model.
- Socket binding and the blocking `recv_from` (src/main.rs:51, 76): each receive is an input `Event`, either a datagram or `ReceiveFailed`. The error log line (src/main.rs:98) is not modelled.
- Controller.Payload: the 64-byte buffer is modelled by cutting longer datagrams to 64 bytes. That is the usual datagram-socket behaviour, but the platform's socket layer is not part of this model. One consequence: a datagram longer than 64 bytes can be dropped even though it starts with `TOGGLE` and is well-formed as a whole. If the cut splits a multi-byte character, the 64 bytes kept are not UTF-8. An example is `TOGGLE`, then 57 `a`, then `é`: the cut leaves the lone lead byte 0xC3.
- LEDC timer and channel construction and `get_max_duty` (src/main.rs:53-70): the LED maximum duty is `Config.maxDuty`; the servo's maximum duty enters only through the band `servoLo`, `servoHi` (see Duty.ServoDuty).
- `set_duty` (src/main.rs:84-94, 103-115): a foreign driver call. The model records the values written, as a `Writes` value: red, green and blue, then the servo. Its failure would end the loop through `?`; the model assumes every write succeeds.
- Duty.ServoDuty: the `f32` products that give the band `lo = 2.5%` and `hi = 12.5%` of the servo's maximum duty (src/main.rs:119-120) are floating point. `lo` and `hi` are integer parameters with `lo <= hi`.
- Duty.Intensity: `u32` overflow of `angle * max_duty` is excluded by the precondition `255 * max_duty <= u32 max`, not modelled as wrap-around.
- Duty.ServoDuty: in the same way, `u32` overflow of `angle * (hi - lo)` and of the final sum is excluded by a precondition.
- Selector.Advance: the selector is an `i32` in the source. It is a `nat` here, because it starts at 0 and only `(c + 1) % 6` changes it, so it can neither go negative nor overflow.

=== FILE: command.dfy ===
/** The command protocol of the control loop: a received payload becomes a
    toggle, a set-angle, or nothing. */
module Command {
  import opened Wrappers
  import opened Bytes
  import Utf8
  import Decimal

  /** A decoded intent: advance the colour selector, or drive all outputs
      from an angle. */
  datatype Command = Toggle | SetAngle(angle: uint8)

  /** The ASCII bytes of the token `TOGGLE`. */
  const TOGGLE_TOKEN: seq<uint8> := [0x54, 0x4F, 0x47, 0x47, 0x4C, 0x45]

  /** Decodes one payload: text that is not well-formed UTF-8 is dropped;
      text starting with `TOGGLE` is a toggle whatever follows; otherwise the
      whole text must read as a `u8`, or it is dropped. */
  function Decode(payload: seq<uint8>): (r: Option<Command>)
    ensures r.Some? ==> Utf8.Valid(payload)
    ensures r == Some(Toggle) ==> TOGGLE_TOKEN <= payload
    ensures r.Some? && r.value.SetAngle? ==> Decimal.IsNumeral(payload, r.value.angle)
  {
    if !Utf8.Valid(payload) then None
    else if TOGGLE_TOKEN <= payload then Some(Toggle)
    else match Decimal.ParseU8(payload)
      case Some(angle) =>
        Decimal.ParseU8Numeral(payload, angle);
        Some(SetAngle(angle))
      case None => None
  }

  /** The canonical payload of a command: the token, or the angle in
      decimal. */
  function Encode(c: Command): seq<uint8> {
    match c
    case Toggle => TOGGLE_TOKEN
    case SetAngle(a) => Decimal.Render(a)
  }

  /** A numeral is ASCII, so it is well-formed UTF-8. */
  lemma NumeralIsAscii(s: seq<uint8>, n: int)
    requires Decimal.IsNumeral(s, n)
    ensures IsAscii(s)
  {
  }

  /** A numeral starts with `+` or a digit, never with `T`. */
  lemma NumeralIsNotToggle(s: seq<uint8>, n: int)
    requires Decimal.IsNumeral(s, n)
    ensures !(TOGGLE_TOKEN <= s)
  {
    if |s| > 0 && s[0] != Decimal.PLUS {
      assert Decimal.IsDigit(Decimal.Digits(s)[0]);
    }
  }

  /** Every payload beginning with the token decodes to a toggle, as long as
      the rest is well-formed text: the prefix test precedes the number
      parse. */
  lemma DecodeToggle(suffix: seq<uint8>)
    requires Utf8.Valid(suffix)
    ensures Decode(TOGGLE_TOKEN + suffix) == Some(Toggle)
  {
    Utf8.AsciiValid(TOGGLE_TOKEN);
    Utf8.ValidConcat(TOGGLE_TOKEN, suffix);
  }

  /** A payload decodes to a set-angle exactly when it is a numeral whose
      value fits in eight bits. */
  lemma DecodeSetAngle(payload: seq<uint8>, a: uint8)
    ensures Decode(payload) == Some(SetAngle(a)) <==> Decimal.IsNumeral(payload, a)
  {
    Decimal.ParseU8Numeral(payload, a);
    if Decimal.IsNumeral(payload, a) {
      NumeralIsAscii(payload, a);
      Utf8.AsciiValid(payload);
      NumeralIsNotToggle(payload, a);
    }
  }

  /** A payload is dropped exactly when it is ill-formed text, or
      well-formed text that neither starts with the token nor is an eight-bit
      numeral. */
  lemma DecodeDrops(payload: seq<uint8>)
    ensures Decode(payload) == None <==>
      !Utf8.Valid(payload) ||
      (!(TOGGLE_TOKEN <= payload) && forall n :: 0 <= n <= 255 ==> !Decimal.IsNumeral(payload, n))
  {
    Decimal.ParseU8Fails(payload);
  }

  /** Every command survives encoding and decoding. */
  lemma DecodeEncode(c: Command)
    ensures Decode(Encode(c)) == Some(c)
  {
    match c
    case Toggle =>
      DecodeToggle([]);
      assert TOGGLE_TOKEN + [] == TOGGLE_TOKEN;
    case SetAngle(a) =>
      Decimal.ParseRender(a);
      DecodeSetAngle(Encode(c), a);
  }

  /** `TOGGLE` alone is a toggle. */
  lemma DecodeTokenExample()
    ensures Decode([0x54, 0x4F, 0x47, 0x47, 0x4C, 0x45]) == Some(Toggle)
  {
    DecodeToggle([]);
    assert TOGGLE_TOKEN + [] == TOGGLE_TOKEN;
  }

  /** `TOGGLE!` is a toggle: the suffix is ignored. */
  lemma DecodeTokenSuffixExample()
    ensures Decode([0x54, 0x4F, 0x47, 0x47, 0x4C, 0x45, 0x21]) == Some(Toggle)
  {
    DecodeToggle([0x21]);
  }

  /** `90` sets angle 90. */
  lemma DecodeAngleExample()
    ensures Decode([0x39, 0x30]) == Some(SetAngle(90))
  {
    Decimal.ParseExamples();
    DecodeSetAngle([0x39, 0x30], 90);
  }

  /** `abc` is well-formed text but no command. */
  lemma DecodeWordExample()
    ensures Decode([0x61, 0x62, 0x63]) == None
  {
    Utf8.AsciiValid([0x61, 0x62, 0x63]);
  }

  /** The empty payload is no command. */
  lemma DecodeEmptyExample()
    ensures Decode([]) == None
  {
  }

  /** `256` does not fit in eight bits. */
  lemma DecodeOverflowExample()
    ensures Decode([0x32, 0x35, 0x36]) == None
  {
    Decimal.ParseExamples();
  }

  /** `90` followed by a newline is rejected by the number parse. */
  lemma DecodeNewlineExample()
    ensures Decode([0x39, 0x30, 0x0A]) == None
  {
    Decimal.ParseExamples();
  }

  /** A lone byte 0xFF is not UTF-8. */
  lemma DecodeInvalidExample()
    ensures Decode([0xFF]) == None
  {
    Utf8.RejectedExamples();
  }
}

=== FILE: controller.dfy ===
/** One iteration of the packet-driven control loop as a pure transition,
    and the loop over a finite sequence of receive events. */
module Controller {
  import opened Wrappers
  import opened Bytes
  import Utf8
  import Decimal
  import opened Command
  import opened Selector
  import opened Duty

  /** Size of the receive buffer: longer datagrams are cut to this length. */
  const BUFFER_SIZE: nat := 64

  /** The hardware facts the loop reads once at start-up: the LED channels'
      maximum duty, and the servo's duty band (2.5% and 12.5% of the servo
      channel's maximum duty, computed outside this model). */
  datatype Config = Config(maxDuty: nat, servoLo: nat, servoHi: nat)

  predicate ValidConfig(cfg: Config) {
    IntensityFits(cfg.maxDuty) && ServoBoundsFit(cfg.servoLo, cfg.servoHi)
  }

  /** What one blocking receive produced: a datagram, or a transport error. */
  datatype Event = Received(datagram: seq<uint8>) | ReceiveFailed

  /** The duty writes of one iteration: the colour triple (absent when the
      selector is outside its six states), then the servo duty. */
  datatype Writes = Writes(colour: Option<Rgb>, servo: nat)

  /** The selector after an iteration, and the writes it made, if any. */
  datatype Transition = Transition(selector: nat, writes: Option<Writes>)

  /** The bytes the loop sees of a datagram: at most the buffer's size. */
  function Payload(datagram: seq<uint8>): (p: seq<uint8>)
    ensures |p| <= BUFFER_SIZE && p <= datagram
    ensures |datagram| <= BUFFER_SIZE ==> p == datagram
    ensures |datagram| > BUFFER_SIZE ==> p == datagram[..BUFFER_SIZE]
  {
    if |datagram| <= BUFFER_SIZE then datagram else datagram[..BUFFER_SIZE]
  }

  /** The command an event carries, if any: a receive error carries none,
      and a datagram carries one only when the bytes kept of it are
      well-formed text. */
  function CommandOf(ev: Event): (r: Option<Command>)
    ensures ev.ReceiveFailed? ==> r == None
    ensures r.Some? ==> ev.Received? && Utf8.Valid(Payload(ev.datagram))
    ensures r == Some(Toggle) ==> TOGGLE_TOKEN <= Payload(ev.datagram)
    ensures r.Some? && r.value.SetAngle? ==> Decimal.IsNumeral(Payload(ev.datagram), r.value.angle)
  {
    match ev
    case ReceiveFailed => None
    case Received(d) => Decode(Payload(d))
  }

  /** What one loop iteration does with a decoded command: a toggle
      advances the selector; a set-angle writes the selected colour at the
      angle's intensity and the servo duty; no command changes nothing. */
  function Perform(cfg: Config, selector: nat, c: Option<Command>): (t: Transition)
    requires ValidConfig(cfg)
    ensures selector < PATTERNS ==> t.selector < PATTERNS
    ensures t.writes.Some? <==> c.Some? && c.value.SetAngle?
    ensures t.selector != selector ==> c == Some(Toggle)
    ensures t.writes.Some? ==> t.selector == selector && cfg.servoLo <= t.writes.value.servo
    ensures t.writes.Some? && selector < PATTERNS ==> t.writes.value.colour.Some?
  {
    match c
    case None => Transition(selector, None)
    case Some(Toggle) => Transition(Advance(selector), None)
    case Some(SetAngle(angle)) =>
      var i := Intensity(angle, cfg.maxDuty);
      Transition(selector, Some(Writes(Apply(selector, i), ServoDuty(angle, cfg.servoLo, cfg.servoHi))))
  }

  /** One loop iteration: receive, decode, then perform the command carried,
      if any; a receive error changes nothing. */
  function Step(cfg: Config, selector: nat, ev: Event): (t: Transition)
    requires ValidConfig(cfg)
    ensures selector < PATTERNS ==> t.selector < PATTERNS
    ensures t.writes.Some? ==> t.selector == selector
    ensures t.writes.Some? ==> cfg.servoLo <= t.writes.value.servo
    ensures t.writes.Some? && selector < PATTERNS ==> t.writes.value.colour.Some?
  {
    Perform(cfg, selector, CommandOf(ev))
  }

  /** An iteration leaves everything as it was exactly when its event
      carries no command: a receive error, ill-formed text, or text that is
      neither a toggle nor an eight-bit numeral. */
  lemma StepIdle(cfg: Config, selector: nat, ev: Event)
    requires ValidConfig(cfg)
    ensures Step(cfg, selector, ev) == Transition(selector, None) <==> CommandOf(ev) == None
    ensures ev.ReceiveFailed? ==> Step(cfg, selector, ev) == Transition(selector, None)
    ensures ev.Received? && !Utf8.Valid(Payload(ev.datagram)) ==>
      Step(cfg, selector, ev) == Transition(selector, None)
  {
  }

  /** Over every event: a toggle only advances the selector and writes
      nothing; a set-angle never moves the selector and writes the selected
      pattern at the angle's intensity together with the servo duty. */
  lemma StepCommand(cfg: Config, selector: nat, ev: Event)
    requires ValidConfig(cfg)
    ensures CommandOf(ev) == Some(Toggle) ==> Step(cfg, selector, ev) == Transition(Advance(selector), None)
    ensures CommandOf(ev).Some? && CommandOf(ev).value.SetAngle? ==>
      var a := CommandOf(ev).value.angle;
      Step(cfg, selector, ev) ==
        Transition(selector, Some(Writes(Apply(selector, Intensity(a, cfg.maxDuty)),
                                         ServoDuty(a, cfg.servoLo, cfg.servoHi))))
  {
  }

  /** A datagram starting with the token followed by well-formed text only
      advances the selector, and writes nothing. */
  lemma StepToggle(cfg: Config, selector: nat, suffix: seq<uint8>)
    requires ValidConfig(cfg)
    requires |TOGGLE_TOKEN + suffix| <= BUFFER_SIZE && Utf8.Valid(suffix)
    ensures Step(cfg, selector, Received(TOGGLE_TOKEN + suffix)) == Transition(Advance(selector), None)
  {
    DecodeToggle(suffix);
  }

  /** A numeral leaves the selector alone and writes the selected pattern:
      lit channels at the angle's intensity, the others at 0; the servo at its
      interpolated duty. For angles up to 180 every write is in range. */
  lemma StepSetAngle(cfg: Config, selector: nat, datagram: seq<uint8>, angle: uint8, ch: Channel)
    requires ValidConfig(cfg) && selector < PATTERNS
    requires |datagram| <= BUFFER_SIZE && Decimal.IsNumeral(datagram, angle)
    ensures Step(cfg, selector, Received(datagram)).selector == selector
    ensures Step(cfg, selector, Received(datagram)).writes.Some?
    ensures var w := Step(cfg, selector, Received(datagram)).writes.value;
      && w.colour.Some?
      && DutyOf(w.colour.value, ch) == (if ch in Pattern(selector) then Intensity(angle, cfg.maxDuty) else 0)
      && w.servo == ServoDuty(angle, cfg.servoLo, cfg.servoHi)
      && (angle <= 180 ==> DutyOf(w.colour.value, ch) <= cfg.maxDuty && w.servo <= cfg.servoHi)
  {
    DecodeSetAngle(datagram, angle);
    ApplyLightsPattern(selector, Intensity(angle, cfg.maxDuty), ch);
  }

  /** Successive states and writes of the loop over a finite run. */
  datatype Trace = Trace(selector: nat, writes: seq<Option<Writes>>)

  /** The loop over a sequence of decoded commands, one iteration each. */
  function Execute(cfg: Config, selector: nat, cs: seq<Option<Command>>): (tr: Trace)
    requires ValidConfig(cfg)
    ensures |tr.writes| == |cs|
    ensures selector < PATTERNS ==> tr.selector < PATTERNS
    decreases |cs|
  {
    if |cs| == 0 then Trace(selector, [])
    else
      var t := Perform(cfg, selector, cs[0]);
      var rest := Execute(cfg, t.selector, cs[1..]);
      Trace(rest.selector, [t.writes] + rest.writes)
  }

  /** Number of toggles among decoded commands. */
  function Toggles(cs: seq<Option<Command>>): nat {
    if |cs| == 0 then 0
    else (if cs[0] == Some(Toggle) then 1 else 0) + Toggles(cs[1..])
  }

  /** The command each event carries, in order. Decoding keeps no state, so
      each datagram is decoded on its own. */
  function Commands(events: seq<Event>): (cs: seq<Option<Command>>)
    ensures |cs| == |events|
    ensures forall k :: 0 <= k < |events| ==> cs[k] == CommandOf(events[k])
  {
    seq(|events|, k requires 0 <= k < |events| => CommandOf(events[k]))
  }

  /** The loop over a finite run of receive events. */
  function Run(cfg: Config, selector: nat, events: seq<Event>): (tr: Trace)
    requires ValidConfig(cfg)
    ensures |tr.writes| == |events|
    ensures selector < PATTERNS ==> tr.selector < PATTERNS
  {
    Execute(cfg, selector, Commands(events))
  }

  /** Number of events that decode to a toggle. */
  function ToggleCount(events: seq<Event>): nat {
    Toggles(Commands(events))
  }

  /** Advancing and then moving `k` places is moving `k + 1` places. */
  lemma AdvanceThenAdd(selector: nat, k: nat)
    requires selector < PATTERNS
    ensures (Advance(selector) + k) % PATTERNS == (selector + 1 + k) % PATTERNS
  {
    if selector == PATTERNS - 1 {
      assert (selector + 1 + k) % PATTERNS == (PATTERNS + k) % PATTERNS == k % PATTERNS;
    }
  }

  /** One iteration moves the selector by one place for a toggle and not at
      all otherwise: moving `k` more places afterwards lands where moving
      that many plus `k` would from the start. */
  lemma PerformShift(cfg: Config, selector: nat, c: Option<Command>, k: nat)
    requires ValidConfig(cfg) && selector < PATTERNS
    ensures (Perform(cfg, selector, c).selector + k) % PATTERNS
         == (selector + (if c == Some(Toggle) then 1 else 0) + k) % PATTERNS
  {
    if c == Some(Toggle) {
      AdvanceThenAdd(selector, k);
    }
  }

  /** Only toggles move the selector: after a run of commands it has
      advanced by the number of toggles, modulo six. */
  lemma {:induction false} ExecuteSelector(cfg: Config, selector: nat, cs: seq<Option<Command>>)
    requires ValidConfig(cfg) && selector < PATTERNS
    ensures Execute(cfg, selector, cs).selector == (selector + Toggles(cs)) % PATTERNS
    decreases |cs|
  {
    if |cs| > 0 {
      var next := Perform(cfg, selector, cs[0]).selector;
      ExecuteSelector(cfg, next, cs[1..]);
      PerformShift(cfg, selector, cs[0], Toggles(cs[1..]));
    }
  }

  /** The selector after the first command, moved by the toggles among the
      next `i - 1` commands, is the start moved by the toggles among the
      first `i`. */
  lemma TogglesBefore(cfg: Config, selector: nat, cs: seq<Option<Command>>, i: nat)
    requires ValidConfig(cfg) && selector < PATTERNS && 0 < i <= |cs|
    ensures (Perform(cfg, selector, cs[0]).selector + Toggles(cs[1..][..i - 1])) % PATTERNS
         == (selector + Toggles(cs[..i])) % PATTERNS
  {
    assert cs[1..][..i - 1] == cs[..i][1..];
    PerformShift(cfg, selector, cs[0], Toggles(cs[1..][..i - 1]));
  }

  /** Every write of a run of commands is what one iteration writes from the
      selector advanced by the toggles before it, modulo six. */
  lemma {:induction false} ExecuteWrites(cfg: Config, selector: nat, cs: seq<Option<Command>>, i: nat)
    requires ValidConfig(cfg) && selector < PATTERNS && i < |cs|
    ensures Execute(cfg, selector, cs).writes[i]
         == Perform(cfg, (selector + Toggles(cs[..i])) % PATTERNS, cs[i]).writes
    decreases i
  {
    if i == 0 {
      assert cs[..0] == [];
    } else {
      var next := Perform(cfg, selector, cs[0]).selector;
      ExecuteWrites(cfg, next, cs[1..], i - 1);
      TogglesBefore(cfg, selector, cs, i);
      assert cs[1..][i - 1] == cs[i];
    }
  }

  /** Decoding a prefix of a run gives the prefix of its commands. */
  lemma CommandsPrefix(events: seq<Event>, i: nat)
    requires i <= |events|
    ensures Commands(events[..i]) == Commands(events)[..i]
  {
  }

  /** An iteration on an event performs the command that event carries. */
  lemma StepPerforms(cfg: Config, selector: nat, ev: Event, c: Option<Command>)
    requires ValidConfig(cfg) && c == CommandOf(ev)
    ensures Step(cfg, selector, ev) == Perform(cfg, selector, c)
  {
  }

  /** A run over events is the run over the commands they carry, and its
      toggle count theirs. */
  lemma RunExecutes(cfg: Config, selector: nat, events: seq<Event>, cs: seq<Option<Command>>)
    requires ValidConfig(cfg) && cs == Commands(events)
    ensures Run(cfg, selector, events) == Execute(cfg, selector, cs)
    ensures ToggleCount(events) == Toggles(cs)
  {
  }

  /** Only toggles move the selector: after a run it has advanced by the
      number of toggles, modulo six. */
  lemma RunSelector(cfg: Config, selector: nat, events: seq<Event>)
    requires ValidConfig(cfg) && selector < PATTERNS
    ensures Run(cfg, selector, events).selector == (selector + ToggleCount(events)) % PATTERNS
  {
    var cs := Commands(events);
    ExecuteSelector(cfg, selector, cs);
    RunExecutes(cfg, selector, events, cs);
  }

  /** Every write of a run is what one iteration writes on that event from
      the selector advanced by the toggles received before it, modulo six. */
  lemma RunWrites(cfg: Config, selector: nat, events: seq<Event>, i: nat)
    requires ValidConfig(cfg) && selector < PATTERNS && i < |events|
    ensures Run(cfg, selector, events).writes[i]
         == Step(cfg, (selector + ToggleCount(events[..i])) % PATTERNS, events[i]).writes
  {
    var cs := Commands(events);
    var at := (selector + ToggleCount(events[..i])) % PATTERNS;
    ExecuteWrites(cfg, selector, cs, i);
    CommandsPrefix(events, i);
    assert at == (selector + Toggles(cs[..i])) % PATTERNS;
    StepPerforms(cfg, at, events[i], cs[i]);
  }

  /** The control loop over a finite sequence of events, from the initial
      selector. */
  method Serve(cfg: Config, events: seq<Event>) returns (selector: nat, writes: seq<Option<Writes>>)
    requires ValidConfig(cfg)
    ensures selector < PATTERNS
    ensures selector == (INITIAL + ToggleCount(events)) % PATTERNS
    ensures Trace(selector, writes) == Run(cfg, INITIAL, events)
  {
    selector := INITIAL;
    writes := [];
    var i := 0;
    while i < |events|
      invariant 0 <= i <= |events|
      invariant selector < PATTERNS
      invariant Run(cfg, selector, events[i..]).selector == Run(cfg, INITIAL, events).selector
      invariant writes + Run(cfg, selector, events[i..]).writes == Run(cfg, INITIAL, events).writes
    {
      var t := Step(cfg, selector, events[i]);
      RunCons(cfg, selector, events[i], events[i + 1..]);
      assert events[i..] == [events[i]] + events[i + 1..];
      assert writes + [t.writes] + Run(cfg, t.selector, events[i + 1..]).writes
          == writes + ([t.writes] + Run(cfg, t.selector, events[i + 1..]).writes);
      selector := t.selector;
      writes := writes + [t.writes];
      i := i + 1;
    }
    assert events[i..] == [];
    RunSelector(cfg, INITIAL, events);
  }

  /** A datagram holding a command's canonical text carries that command. */
  lemma EncodedCommand(c: Command)
    ensures CommandOf(Received(Encode(c))) == Some(c)
  {
    DecodeEncode(c);
  }

  /** An iteration on a command's canonical text performs that command. */
  lemma StepEncoded(cfg: Config, selector: nat, c: Command)
    requires ValidConfig(cfg)
    ensures c.Toggle? ==> Step(cfg, selector, Received(Encode(c))) == Transition(Advance(selector), None)
    ensures c.SetAngle? ==>
      (Step(cfg, selector, Received(Encode(c))) ==
       Transition(selector, Some(Writes(Apply(selector, Intensity(c.angle, cfg.maxDuty)),
                                        ServoDuty(c.angle, cfg.servoLo, cfg.servoHi)))))
  {
    DecodeEncode(c);
  }

  /** A run's first event is stepped, then the rest from the new state. */
  lemma RunCons(cfg: Config, selector: nat, e: Event, rest: seq<Event>)
    requires ValidConfig(cfg)
    ensures var t := Step(cfg, selector, e);
      Run(cfg, selector, [e] + rest) ==
        Trace(Run(cfg, t.selector, rest).selector, [t.writes] + Run(cfg, t.selector, rest).writes)
  {
    var cs := Commands([e] + rest);
    assert cs[0] == CommandOf(e);
    assert cs[1..] == Commands(rest);
  }

  /** A toggle, then angle 0, then angle 180, with LED maximum duty 1000:
      the selector moves to the green pattern, which is then written dark and
      at full duty, while the servo goes to the ends of its band. Any payloads
      carrying these commands will do, "TOGGLE", "0" and "180" among them. */
  lemma EndToEnd(lo: nat, hi: nat, toggle: seq<uint8>, zero: seq<uint8>, full: seq<uint8>)
    requires ServoBoundsFit(lo, hi)
    requires CommandOf(Received(toggle)) == Some(Toggle)
    requires CommandOf(Received(zero)) == Some(SetAngle(0))
    requires CommandOf(Received(full)) == Some(SetAngle(180))
    ensures Run(Config(1000, lo, hi), INITIAL, [Received(toggle), Received(zero), Received(full)])
      == Trace(1, [None, Some(Writes(Some(Rgb(0, 0, 0)), lo)), Some(Writes(Some(Rgb(0, 1000, 0)), hi))])
  {
    var cfg := Config(1000, lo, hi);
    var e0, e1, e2 := Received(toggle), Received(zero), Received(full);
    ServoEnds(lo, hi);
    IntensityEnds(1000);
    RunCons(cfg, 1, e2, []);
    RunCons(cfg, 1, e1, [e2]);
    RunCons(cfg, 0, e0, [e1, e2]);
    assert [e0, e1, e2] == [e0] + [e1, e2];
    assert [e2] == [e2] + [];
    assert [e1, e2] == [e1] + [e2];
  }

  /** The payload `TOGGLE` of the end-to-end scenario carries a toggle. */
  lemma TogglePayload()
    ensures CommandOf(Received(TOGGLE_TOKEN)) == Some(Toggle)
  {
    EncodedCommand(Toggle);
  }

  /** The payload `0` of the end-to-end scenario sets angle 0. */
  lemma ZeroPayload()
    ensures CommandOf(Received([0x30])) == Some(SetAngle(0))
  {
    EncodedCommand(SetAngle(0));
    assert Encode(SetAngle(0)) == [0x30];
  }

  /** The payload `180` of the end-to-end scenario sets angle 180. */
  lemma FullPayload()
    ensures CommandOf(Received([0x31, 0x38, 0x30])) == Some(SetAngle(180))
  {
    EncodedCommand(SetAngle(180));
    assert Encode(SetAngle(180)) == [0x31, 0x38, 0x30];
  }
}

=== FILE: decimal.dfy ===
/** Parsing of an unsigned 8-bit decimal number, as Rust's `u8::from_str`
    does it: an optional leading `+`, then one or more ASCII digits whose
    value fits in eight bits. No whitespace, no `-`, no other radix. */
module Decimal {
  import opened Wrappers
  import opened Bytes

  const PLUS: uint8 := 0x2B
  const MINUS: uint8 := 0x2D
  const ZERO: uint8 := 0x30

  predicate IsDigit(b: uint8) {
    0x30 <= b <= 0x39
  }

  predicate AllDigits(ds: seq<uint8>) {
    forall i :: 0 <= i < |ds| ==> IsDigit(ds[i])
  }

  /** The value of a digit string read as base ten, defined from its last
      digit: the reference meaning of a numeral, with no width limit. */
  function Value(ds: seq<uint8>): nat
    requires AllDigits(ds)
  {
    if |ds| == 0 then 0
    else Value(ds[..|ds| - 1]) * 10 + (ds[|ds| - 1] - ZERO)
  }

  /** The digits of a numeral: everything after a leading `+`, if any. */
  function Digits(s: seq<uint8>): seq<uint8> {
    if |s| > 0 && s[0] == PLUS then s[1..] else s
  }

  /** `s` is a numeral of value `n`: an optional `+` followed by at least one
      digit. */
  predicate IsNumeral(s: seq<uint8>, n: int) {
    var ds := Digits(s);
    |ds| > 0 && AllDigits(ds) && Value(ds) == n
  }

  /** Digit-by-digit accumulation with the checked multiply-and-add of the
      standard library: a non-digit, or a step whose result would exceed
      255, stops the parse with an error. */
  function Accumulate(acc: uint8, ds: seq<uint8>): (r: Option<uint8>)
    ensures r.Some? ==> AllDigits(ds) && acc <= r.value
    decreases |ds|
  {
    if |ds| == 0 then Some(acc)
    else if !IsDigit(ds[0]) then None
    else if acc * 10 + (ds[0] - ZERO) > 255 then None
    else Accumulate(acc * 10 + (ds[0] - ZERO), ds[1..])
  }

  /** `u8::from_str`: an empty text, or a lone sign, is an error; a leading
      `+` is skipped; a `-` is not a digit, so it fails like any other. */
  function ParseU8(s: seq<uint8>): (r: Option<uint8>)
    ensures r.Some? ==> IsNumeral(s, r.value)
    ensures r.None? ==> forall n :: 0 <= n <= 255 ==> !IsNumeral(s, n)
  {
    AccumulateValue([], Digits(s));
    assert [] + Digits(s) == Digits(s);
    if |s| == 0 then None
    else if (s[0] == PLUS || s[0] == MINUS) && |s| == 1 then None
    else if s[0] == PLUS then Accumulate(0, s[1..])
    else Accumulate(0, s)
  }

  /** Appending a digit multiplies the value by ten and adds the digit. */
  lemma ValueSnoc(ds: seq<uint8>, d: uint8)
    requires AllDigits(ds) && IsDigit(d)
    ensures AllDigits(ds + [d])
    ensures Value(ds + [d]) == Value(ds) * 10 + (d - ZERO)
  {
    assert (ds + [d])[..|ds|] == ds;
  }

  /** Appending digits never lowers the value. */
  lemma {:induction false} ValueGrows(p: seq<uint8>, q: seq<uint8>)
    requires AllDigits(p) && AllDigits(q)
    ensures AllDigits(p + q)
    ensures Value(p + q) >= Value(p)
    decreases |q|
  {
    if |q| == 0 {
      assert p + q == p;
    } else {
      var q' := q[..|q| - 1];
      ValueGrows(p, q');
      assert p + q == (p + q') + [q[|q| - 1]];
      ValueSnoc(p + q', q[|q| - 1]);
    }
  }

  /** The checked accumulation agrees with the unbounded value: having read
      `p`, it reads the rest `q` to `Value(p + q)` exactly when `q` is all
      digits and that value fits in eight bits, and fails otherwise. */
  lemma {:induction false} AccumulateValue(p: seq<uint8>, q: seq<uint8>)
    requires AllDigits(p) && Value(p) <= 255
    ensures Accumulate(Value(p), q) ==
      if AllDigits(q) && AllDigits(p + q) && Value(p + q) <= 255 then Some(Value(p + q)) else None
    decreases |q|
  {
    if |q| == 0 {
      assert p + q == p;
    } else if !IsDigit(q[0]) {
    } else {
      var d := q[0];
      ValueSnoc(p, d);
      var p' := p + [d];
      assert p' + q[1..] == p + q;
      if Value(p') > 255 {
        if AllDigits(q[1..]) {
          ValueGrows(p', q[1..]);
        }
      } else {
        AccumulateValue(p', q[1..]);
        assert AllDigits(q) <==> AllDigits(q[1..]) by {
          assert forall i :: 0 < i < |q| ==> q[i] == q[1..][i - 1];
        }
      }
    }
  }

  /** The parser accepts exactly the numerals whose value fits in a `u8`,
      and returns that value. */
  lemma ParseU8Numeral(s: seq<uint8>, n: int)
    ensures ParseU8(s) == Some(n) <==> IsNumeral(s, n) && n <= 255
  {
    var ds := Digits(s);
    AccumulateValue([], ds);
    assert [] + ds == ds;
  }

  /** The parser fails exactly when the text is not an eight-bit numeral. */
  lemma ParseU8Fails(s: seq<uint8>)
    ensures ParseU8(s) == None <==> forall n :: 0 <= n <= 255 ==> !IsNumeral(s, n)
  {
    forall n | 0 <= n <= 255 {
      ParseU8Numeral(s, n);
    }
    if ParseU8(s).Some? {
      ParseU8Numeral(s, ParseU8(s).value);
    }
  }

  /** The shortest decimal text of an eight-bit value, as `u8`'s `Display`
      writes it. */
  function Render(n: uint8): (r: seq<uint8>)
    ensures 1 <= |r| <= 3
  {
    if n < 10 then [ZERO + n]
    else if n < 100 then [ZERO + n / 10, ZERO + n % 10]
    else [ZERO + n / 100, ZERO + n / 10 % 10, ZERO + n % 10]
  }

  /** The value of a one-, two- or three-digit string. */
  lemma ValueShort(ds: seq<uint8>)
    requires 1 <= |ds| <= 3 && AllDigits(ds)
    ensures |ds| == 1 ==> Value(ds) == ds[0] - ZERO
    ensures |ds| == 2 ==> Value(ds) == (ds[0] - ZERO) * 10 + (ds[1] - ZERO)
    ensures |ds| == 3 ==> Value(ds) == ((ds[0] - ZERO) * 10 + (ds[1] - ZERO)) * 10 + (ds[2] - ZERO)
  {
    assert ds[..1][..0] == [];
    if |ds| == 2 {
      assert ds[..1] == [ds[0]];
    } else if |ds| == 3 {
      assert ds[..2][..1] == ds[..1];
    }
  }

  /** Rendering then parsing gives the value back. */
  lemma ParseRender(n: uint8)
    ensures IsNumeral(Render(n), n)
    ensures ParseU8(Render(n)) == Some(n)
  {
    var r := Render(n);
    assert AllDigits(r);
    ValueShort(r);
    ParseU8Numeral(r, n);
  }

  /** Concrete readings, including text a netcat client would send with its
      trailing newline. */
  lemma ParseExamples()
    ensures ParseU8([0x39, 0x30]) == Some(90)
    ensures ParseU8([0x2B, 0x37]) == Some(7)
    ensures ParseU8([0x30, 0x30, 0x37]) == Some(7)
    ensures ParseU8([0x32, 0x35, 0x36]) == None
    ensures ParseU8([0x39, 0x30, 0x0A]) == None
    ensures ParseU8([0x2D, 0x30]) == None
    ensures ParseU8([0x2B]) == None
    ensures ParseU8([]) == None
  {
  }
}

=== FILE: duty.dfy ===
/** Integer mappings from an angle to PWM duty values. */
module Duty {
  import opened Bytes

  /** Largest value of the 32-bit unsigned duty type. */
  const U32_MAX: int := 0xFFFF_FFFF

  /** `angle * max_duty` cannot overflow `u32` for any eight-bit angle. */
  predicate IntensityFits(maxDuty: nat) {
    255 * maxDuty <= U32_MAX
  }

  /** Floor division by 180 brackets its numerator. */
  lemma Div180(x: nat)
    ensures (x / 180) * 180 <= x < (x / 180) * 180 + 180
  {
  }

  /** Multiplying by a non-negative factor keeps order. */
  lemma MulMono(a: nat, b: nat, m: nat)
    requires a <= b
    ensures a * m <= b * m
  {
  }

  /** Multiplication distributes over a sum. */
  lemma Distribute(a: nat, b: nat, m: nat)
    ensures (a + b) * m == a * m + b * m
  {
  }

  /** A quotient by 180 is at most `m` when its numerator is at most
      `180 * m`, and at least `m` when its numerator is at least that. */
  lemma DivCompare(x: nat, m: nat)
    ensures x <= 180 * m ==> x / 180 <= m
    ensures x >= 180 * m ==> x / 180 >= m
    ensures x / 180 > m <==> x >= 180 * m + 180
  {
    Div180(x);
  }

  /** A numerator of `180 * m` plus an excess is at least `m` after
      division by 180, and more exactly when the excess reaches 180. */
  lemma QuotientAbove(x: nat, m: nat, e: nat)
    requires x == 180 * m + e * m
    ensures x / 180 >= m
    ensures x / 180 > m <==> e * m >= 180
  {
    DivCompare(x, m);
  }

  /** Bounds on `angle * m / 180` for an eight-bit angle. */
  lemma Scaled(angle: uint8, m: nat)
    ensures (angle * m / 180) * 180 <= angle * m < (angle * m / 180 + 1) * 180
    ensures angle * m <= 255 * m
    ensures angle * m / 180 <= 255 * m / 180
    ensures angle <= 180 ==> angle * m / 180 <= m
  {
    var x := angle * m;
    Div180(x);
    MulMono(angle, 255, m);
    Div180(255 * m);
    if angle <= 180 {
      MulMono(angle, 180, m);
      DivCompare(x, m);
    }
  }

  /** LED intensity for an angle: the angle's share of 180 degrees applied
      to the channel's maximum duty, rounded down. */
  function Intensity(angle: uint8, maxDuty: nat): (r: nat)
    requires IntensityFits(maxDuty)
    ensures r * 180 <= angle * maxDuty < (r + 1) * 180
    ensures r <= U32_MAX
    ensures angle <= 180 ==> r <= maxDuty
  {
    Scaled(angle, maxDuty);
    angle * maxDuty / 180
  }

  /** The intensity is 0 at angle 0 and the full duty at angle 180. */
  lemma IntensityEnds(maxDuty: nat)
    requires IntensityFits(maxDuty)
    ensures Intensity(0, maxDuty) == 0
    ensures Intensity(180, maxDuty) == maxDuty
  {
  }

  /** A larger angle never gives a smaller intensity. */
  lemma IntensityMonotone(a: uint8, b: uint8, maxDuty: nat)
    requires IntensityFits(maxDuty) && a <= b
    ensures Intensity(a, maxDuty) <= Intensity(b, maxDuty)
  {
    MulMono(a, b, maxDuty);
    Div180(a * maxDuty);
    Div180(b * maxDuty);
  }

  /** Angles above 180 are not rejected: they reach at least the full duty,
      and pass it exactly when the excess angle times the duty reaches 180. */
  lemma IntensityAbove180(angle: uint8, maxDuty: nat)
    requires IntensityFits(maxDuty) && angle > 180
    ensures Intensity(angle, maxDuty) >= maxDuty
    ensures Intensity(angle, maxDuty) > maxDuty <==> (angle - 180) * maxDuty >= 180
  {
    var e := angle - 180;
    Distribute(180, e, maxDuty);
    QuotientAbove(angle * maxDuty, maxDuty, e);
  }

  /** The servo computation stays within `u32`: the range lies in order, and
      neither `angle * range` nor the final sum overflows for any eight-bit
      angle. */
  predicate ServoBoundsFit(lo: nat, hi: nat) {
    lo <= hi && hi <= U32_MAX && 255 * (hi - lo) <= U32_MAX && lo + 255 * (hi - lo) / 180 <= U32_MAX
  }

  /** Servo duty for an angle: linear interpolation from `lo` at 0 degrees
      to `hi` at 180 degrees, rounded down, continued past `hi` for angles
      above 180. */
  function ServoDuty(angle: uint8, lo: nat, hi: nat): (r: nat)
    requires ServoBoundsFit(lo, hi)
    ensures lo <= r <= U32_MAX
    ensures angle <= 180 ==> r <= hi
    ensures (r - lo) * 180 <= angle * (hi - lo) < (r - lo + 1) * 180
  {
    Scaled(angle, hi - lo);
    lo + angle * (hi - lo) / 180
  }

  /** The servo sits at `lo` at 0 degrees and at `hi` at 180 degrees. */
  lemma ServoEnds(lo: nat, hi: nat)
    requires ServoBoundsFit(lo, hi)
    ensures ServoDuty(0, lo, hi) == lo
    ensures ServoDuty(180, lo, hi) == hi
  {
  }

  /** Angles above 180 are not clamped: the servo duty is at least `hi`,
      and passes it exactly when the excess angle times the band reaches
      180. */
  lemma ServoAbove180(angle: uint8, lo: nat, hi: nat)
    requires ServoBoundsFit(lo, hi) && angle > 180
    ensures ServoDuty(angle, lo, hi) >= hi
    ensures ServoDuty(angle, lo, hi) > hi <==> (angle - 180) * (hi - lo) >= 180
  {
    ServoIsShiftedIntensity(angle, angle, lo, hi);
    IntensityAbove180(angle, hi - lo);
  }

  /** The servo duty is the LED intensity over the band `hi - lo`, lifted
      by `lo`; so it inherits monotonicity from the intensity. */
  lemma ServoIsShiftedIntensity(a: uint8, b: uint8, lo: nat, hi: nat)
    requires ServoBoundsFit(lo, hi) && a <= b
    ensures IntensityFits(hi - lo)
    ensures ServoDuty(a, lo, hi) == lo + Intensity(a, hi - lo)
    ensures ServoDuty(a, lo, hi) <= ServoDuty(b, lo, hi)
  {
    IntensityMonotone(a, b, hi - lo);
  }
}

=== FILE: selector.dfy ===
/** The six-state colour selector: which of the red, green and blue
    channels an intensity is applied to. */
module Selector {
  import opened Wrappers

  /** Number of channel patterns the selector cycles through. */
  const PATTERNS: nat := 6

  /** A duty triple for the red, green and blue channels. */
  datatype Rgb = Rgb(r: nat, g: nat, b: nat)

  datatype Channel = Red | Green | Blue

  /** The duty a triple holds for one channel. */
  function DutyOf(c: Rgb, ch: Channel): nat {
    match ch
    case Red => c.r
    case Green => c.g
    case Blue => c.b
  }

  /** The selector starts at the red pattern. */
  const INITIAL: nat := 0

  /** A toggle advances the selector by one, wrapping after the sixth
      pattern. */
  function Advance(index: nat): (r: nat)
    ensures r < PATTERNS
    ensures index < PATTERNS ==> (r == 0 <==> index == PATTERNS - 1)
    ensures index < PATTERNS - 1 ==> r == index + 1
  {
    (index + 1) % PATTERNS
  }

  /** The selector after `n` toggles. */
  function AdvanceBy(index: nat, n: nat): nat {
    if n == 0 then index else Advance(AdvanceBy(index, n - 1))
  }

  /** Starting inside the range, `n` toggles move the selector `n` places
      round the cycle of six. */
  lemma {:induction false} AdvanceByAdds(index: nat, n: nat)
    requires index < PATTERNS
    ensures AdvanceBy(index, n) == (index + n) % PATTERNS
  {
    if n > 0 {
      AdvanceByAdds(index, n - 1);
    }
  }

  /** Six toggles bring the selector back where it started. */
  lemma SixAdvancesReturn(index: nat)
    requires index < PATTERNS
    ensures AdvanceBy(index, PATTERNS) == index
    ensures forall k :: 0 < k < PATTERNS ==> AdvanceBy(index, k) != index
  {
    AdvanceByAdds(index, PATTERNS);
    forall k | 0 < k < PATTERNS {
      AdvanceByAdds(index, k);
    }
  }

  /** The channels each selector state lights: red, green, blue, red and
      green, red and blue, green and blue. */
  function Pattern(index: nat): set<Channel>
    requires index < PATTERNS
  {
    [{Red}, {Green}, {Blue}, {Red, Green}, {Red, Blue}, {Green, Blue}][index]
  }

  /** The output table of the selector. An index outside the six states
      falls to the catch-all arm, which writes nothing. */
  function Apply(index: nat, i: nat): (r: Option<Rgb>)
    ensures r.Some? <==> index < PATTERNS
  {
    match index
    case 0 => Some(Rgb(i, 0, 0))
    case 1 => Some(Rgb(0, i, 0))
    case 2 => Some(Rgb(0, 0, i))
    case 3 => Some(Rgb(i, i, 0))
    case 4 => Some(Rgb(i, 0, i))
    case 5 => Some(Rgb(0, i, i))
    case _ => None
  }

  /** In every selector state the lit channels get the intensity and the
      others are written as 0. */
  lemma ApplyLightsPattern(index: nat, i: nat, ch: Channel)
    requires index < PATTERNS
    ensures Apply(index, i).Some?
    ensures DutyOf(Apply(index, i).value, ch) == if ch in Pattern(index) then i else 0
  {
  }

  /** The six patterns are exactly the non-empty proper subsets of the three
      channels, each reached by one selector state. */
  lemma PatternsAreProperSubsets(j: nat, k: nat, s: set<Channel>)
    requires j < PATTERNS && k < PATTERNS
    ensures Pattern(j) == Pattern(k) ==> j == k
    ensures s != {} && s != {Red, Green, Blue} ==> exists m :: 0 <= m < PATTERNS && Pattern(m) == s
  {
    var r, g, b := Red in s, Green in s, Blue in s;
    var t := (if r then {Red} else {}) + (if g then {Green} else {}) + (if b then {Blue} else {});
    assert s == t by {
      forall ch: Channel
        ensures ch in s <==> ch in t
      {
        match ch
        case Red =>
        case Green =>
        case Blue =>
      }
    }
    if s != {} && s != {Red, Green, Blue} {
      var m := if r && g then 3 else if r && b then 4 else if g && b then 5
               else if r then 0 else if g then 1 else 2;
      assert Pattern(m) == s;
    }
  }
}

=== FILE: utf8.dfy ===
/** UTF-8 well-formedness as defined by RFC 3629 (section 3 for the bit
    layout, section 4 for the byte-range table), which is what Rust's
    `std::str::from_utf8` accepts: no overlong forms, no surrogates
    U+D800..U+DFFF, nothing above U+10FFFF. */
module Utf8 {
  import opened Bytes

  /** A continuation byte, 10xxxxxx. */
  predicate IsContinuation(b: uint8) {
    0x80 <= b <= 0xBF
  }

  /** The allowed second byte of a three-byte character, given its lead byte
      (UTF8-3 in section 4 of RFC 3629). */
  predicate SecondOfThree(b0: uint8, b1: uint8) {
    if b0 == 0xE0 then 0xA0 <= b1 <= 0xBF
    else if b0 == 0xED then 0x80 <= b1 <= 0x9F
    else IsContinuation(b1)
  }

  /** The allowed second byte of a four-byte character, given its lead byte
      (UTF8-4 in section 4 of RFC 3629). */
  predicate SecondOfFour(b0: uint8, b1: uint8) {
    if b0 == 0xF0 then 0x90 <= b1 <= 0xBF
    else if b0 == 0xF4 then 0x80 <= b1 <= 0x8F
    else IsContinuation(b1)
  }

  /** Length in bytes of the well-formed character at the head of `s`, or 0
      when no well-formed character starts there. */
  function LeadLength(s: seq<uint8>): (n: nat)
    ensures n <= 4 && n <= |s|
  {
    if |s| == 0 then 0
    else if s[0] <= 0x7F then 1
    else if 0xC2 <= s[0] <= 0xDF then
      if |s| >= 2 && IsContinuation(s[1]) then 2 else 0
    else if 0xE0 <= s[0] <= 0xEF then
      if |s| >= 3 && SecondOfThree(s[0], s[1]) && IsContinuation(s[2]) then 3 else 0
    else if 0xF0 <= s[0] <= 0xF4 then
      if |s| >= 4 && SecondOfFour(s[0], s[1]) && IsContinuation(s[2]) && IsContinuation(s[3]) then 4 else 0
    else 0
  }

  /** The byte sequence is a concatenation of well-formed characters: what
      `std::str::from_utf8` accepts. Seven-bit ASCII always qualifies. */
  predicate Valid(s: seq<uint8>)
    ensures IsAscii(s) ==> Valid(s)
    decreases |s|
  {
    |s| == 0 || (LeadLength(s) > 0 && Valid(s[LeadLength(s)..]))
  }

  /** A Unicode scalar value: a code point that is not a surrogate. */
  predicate IsScalar(cp: int) {
    0 <= cp <= 0x10FFFF && !(0xD800 <= cp <= 0xDFFF)
  }

  /** The shortest-form encoding of a scalar value (section 3 of RFC 3629):
      the low six bits go into each continuation byte, the remaining high bits
      into the lead byte. */
  function EncodeScalar(cp: int): (r: seq<uint8>)
    requires IsScalar(cp)
    ensures 1 <= |r| <= 4
  {
    if cp < 0x80 then [cp]
    else if cp < 0x800 then [0xC0 + cp / 64, 0x80 + cp % 64]
    else if cp < 0x10000 then [0xE0 + cp / 64 / 64, 0x80 + cp / 64 % 64, 0x80 + cp % 64]
    else [0xF0 + cp / 64 / 64 / 64, 0x80 + cp / 64 / 64 % 64, 0x80 + cp / 64 % 64, 0x80 + cp % 64]
  }

  /** The scalar value of the well-formed character at the head of `s`. */
  function CharValue(s: seq<uint8>): int
    requires LeadLength(s) > 0
  {
    var n := LeadLength(s);
    if n == 1 then s[0] as int
    else if n == 2 then Low6(s[0] as int - 0xC0, s[1])
    else if n == 3 then Low6(Low6(s[0] as int - 0xE0, s[1]), s[2])
    else Low6(Low6(Low6(s[0] as int - 0xF0, s[1]), s[2]), s[3])
  }

  /** Shifts `high` left by six bits and appends the payload of a
      continuation byte. */
  function Low6(high: int, b: uint8): int {
    high * 64 + (b as int - 0x80)
  }

  /** Quotient and remainder by 64 of a value built by Low6. */
  lemma Split6(high: int, b: uint8)
    requires IsContinuation(b)
    ensures Low6(high, b) / 64 == high
    ensures Low6(high, b) % 64 == b as int - 0x80
  {
  }

  /** Every well-formed head is the encoding of exactly the scalar value it
      carries: the byte table of section 4 admits no overlong form, no
      surrogate and nothing above U+10FFFF. */
  lemma HeadIsEncoding(s: seq<uint8>)
    requires LeadLength(s) > 0
    ensures IsScalar(CharValue(s))
    ensures EncodeScalar(CharValue(s)) == s[..LeadLength(s)]
  {
    var n := LeadLength(s);
    if n == 2 {
      Split6(s[0] as int - 0xC0, s[1]);
    } else if n == 3 {
      var v1 := Low6(s[0] as int - 0xE0, s[1]);
      Split6(s[0] as int - 0xE0, s[1]);
      Split6(v1, s[2]);
    } else if n == 4 {
      var v1 := Low6(s[0] as int - 0xF0, s[1]);
      var v2 := Low6(v1, s[2]);
      Split6(s[0] as int - 0xF0, s[1]);
      Split6(v1, s[2]);
      Split6(v2, s[3]);
    }
  }

  /** The encoding of a scalar value is read back as one character carrying
      that value, whatever follows it. */
  lemma EncodingIsHead(cp: int, rest: seq<uint8>)
    requires IsScalar(cp)
    ensures LeadLength(EncodeScalar(cp) + rest) == |EncodeScalar(cp)|
    ensures CharValue(EncodeScalar(cp) + rest) == cp
  {
  }

  /** All elements are scalar values. */
  predicate AllScalars(cps: seq<int>) {
    forall i :: 0 <= i < |cps| ==> IsScalar(cps[i])
  }

  /** The UTF-8 text of a sequence of scalar values. */
  function EncodeAll(cps: seq<int>): seq<uint8>
    requires AllScalars(cps)
  {
    if |cps| == 0 then [] else EncodeScalar(cps[0]) + EncodeAll(cps[1..])
  }

  /** The scalar values of a well-formed byte sequence, in order. */
  function DecodeAll(s: seq<uint8>): (cps: seq<int>)
    requires Valid(s)
    ensures AllScalars(cps)
    decreases |s|
  {
    if |s| == 0 then []
    else
      HeadIsEncoding(s);
      [CharValue(s)] + DecodeAll(s[LeadLength(s)..])
  }

  /** Every text built from scalar values is accepted, and reads back as the
      same scalar values. */
  lemma {:induction false} EncodeAllValid(cps: seq<int>)
    requires AllScalars(cps)
    ensures Valid(EncodeAll(cps))
    ensures DecodeAll(EncodeAll(cps)) == cps
  {
    if |cps| > 0 {
      var e := EncodeScalar(cps[0]);
      var rest := EncodeAll(cps[1..]);
      EncodingIsHead(cps[0], rest);
      assert (e + rest)[|e|..] == rest;
      EncodeAllValid(cps[1..]);
    }
  }

  /** A text is its head character's encoding followed by the rest. */
  lemma HeadSplit(s: seq<uint8>)
    requires LeadLength(s) > 0
    ensures s == EncodeScalar(CharValue(s)) + s[LeadLength(s)..]
  {
    var n := LeadLength(s);
    HeadIsEncoding(s);
    assert s == s[..n] + s[n..];
  }

  /** The first scalar value of a text is its head character's. */
  lemma DecodeAllCons(s: seq<uint8>)
    requires Valid(s) && |s| > 0
    ensures |DecodeAll(s)| > 0
    ensures DecodeAll(s)[0] == CharValue(s)
    ensures DecodeAll(s)[1..] == DecodeAll(s[LeadLength(s)..])
  {
  }

  /** The text of a sequence of scalar values starts with the first one's
      encoding. */
  lemma EncodeAllCons(cps: seq<int>)
    requires AllScalars(cps) && |cps| > 0
    ensures EncodeAll(cps) == EncodeScalar(cps[0]) + EncodeAll(cps[1..])
  {
  }

  /** Every accepted byte sequence is the encoding of the scalar values it
      decodes to: the validity check accepts exactly the UTF-8 texts. */
  lemma {:induction false} DecodeAllEncodes(s: seq<uint8>)
    requires Valid(s)
    ensures EncodeAll(DecodeAll(s)) == s
    decreases |s|
  {
    if |s| > 0 {
      var n := LeadLength(s);
      DecodeAllCons(s);
      HeadSplit(s);
      DecodeAllEncodes(s[n..]);
      EncodeAllCons(DecodeAll(s));
    }
  }

  /** Seven-bit ASCII text is always accepted. */
  lemma {:induction false} AsciiValid(s: seq<uint8>)
    requires IsAscii(s)
    ensures Valid(s)
    decreases |s|
  {
    if |s| > 0 {
      AsciiValid(s[1..]);
    }
  }

  /** The character at the head of `a` is read the same whatever follows
      `a`: its length depends on its own bytes only. */
  lemma LeadLengthExtends(a: seq<uint8>, b: seq<uint8>)
    requires LeadLength(a) > 0
    ensures LeadLength(a + b) == LeadLength(a)
  {
    assert forall i :: 0 <= i < |a| ==> (a + b)[i] == a[i];
  }

  /** Two accepted texts placed side by side form an accepted text. */
  lemma {:induction false} ValidConcat(a: seq<uint8>, b: seq<uint8>)
    requires Valid(a) && Valid(b)
    ensures Valid(a + b)
    decreases |a|
  {
    if |a| == 0 {
      assert a + b == b;
    } else {
      var n := LeadLength(a);
      LeadLengthExtends(a, b);
      assert (a + b)[n..] == a[n..] + b;
      ValidConcat(a[n..], b);
    }
  }

  /** Bytes 0xC0, 0xC1 and 0xF5..0xFF never occur, so a lone one is rejected;
      so is an overlong two-byte NUL, a surrogate and a truncated character. */
  lemma RejectedExamples()
    ensures !Valid([0xFF])
    ensures !Valid([0xC0, 0x80])
    ensures !Valid([0xED, 0xA0, 0x80])
    ensures !Valid([0xE2, 0x82])
    ensures Valid([0xE2, 0x82, 0xAC])
  {
  }
}

=== FILE: wrappers.dfy ===
/** Shared value types: the optional result of decoding, and the byte
    type of received payloads. */
module Wrappers {

  /** A decoded value, or nothing when the payload is dropped. */
  datatype Option<+T> = None | Some(value: T)
}

module Bytes {

  /** An unsigned 8-bit value: a received byte, or a parsed angle. */
  type uint8 = x: int | 0 <= x < 0x100

  /** True when every byte is in the 7-bit ASCII range. */
  predicate IsAscii(s: seq<uint8>) {
    forall i :: 0 <= i < |s| ==> s[i] < 0x80
  }
}
